=== FILE: README.md ===
# Instagram relay bot: a Dafny model of its decision logic

The bot watches chat messages for a link to an Instagram post, reel or IGTV
video. It fetches the video with an extractor library and posts it back to the
chat. Then it deletes the message that carried the link. A second module is a
fallback client for the same posts. It logs in to Instagram with an account
held in the environment and keeps that session for the life of the process.
The handler in `bot.py` does not call this module.

This project models the three pieces of sequential logic in those two files:

- **`InstagramUrl`** (`instagram_url.dfy`) is the link search of `bot.py`. It
  is one fixed regular expression, hand-coded as a recogniser over `string`.
  `Matches` states the pattern's language declaratively, with one witness per
  alternative and one split point for the optional path. `MatchAt` and `Search`
  are the recogniser. The lemmas show that the search reports exactly the match
  Python's `re.search` reports: the leftmost one, and the longest one starting
  there. For this pattern the backtracking engine's greedy choice is the
  longest match. The shortcode run is taken whole, and the optional
  `/`-and-non-whitespace part always succeeds once a `/` follows. `\s` is
  Python's `str.isspace` set of code points, because the pattern is a `str`
  pattern. `UrlExamples` (`url_examples.dfy`) works two concrete messages
  through the search.
- **`FileSelection`** (`file_selection.dfy`) picks the downloaded file out of
  the scratch directory. **`MessageHandler`** (`message_handler.dfy`) is the
  handler's decision. Every call on the chat service or the file system is
  represented by its outcome, fixed in advance in a `World`. The handler's
  behaviour is the list of chat actions it performs.
- **`InstagramClient`** (`instagram_client.dfy`) is the fallback client. The
  shared client is a `Session` with three flags: a client exists, it is logged
  in, and the session file is on disk. Each operation is a pure function from
  the session before a call to the result, the session after it, and the side
  effects in order. The outcome of every library call is fixed in a `Remote`.
  A series of requests against the one shared client is `Serve`.

`Basics` (`basics.dfy`) holds `Option`, literal matching inside a string,
Python's substring test and ASCII case folding.

## Model

| member | source | states |
|---|---|---|
| `InstagramUrl.ExtractInstagramUrl` | bot.py:18-28 | No result exactly when no substring of the text is in the pattern's language. Otherwise the result is the text between the leftmost match start and the longest match end there. It is nonempty, in the pattern's shape, free of whitespace, and stops at the end of the text, at whitespace, or before a character that neither continues the shortcode nor opens a path. |
| `InstagramUrl.SearchCorrect` | bot.py:26-28 | The search finds nothing exactly when no substring matches. Otherwise it reports a nonempty span that is leftmost, longest at its start, and ends at a stop boundary. |
| `InstagramUrl.MatchAtCorrect` | bot.py:18-20 | At one start position, the recogniser's match is in the language, and every match in the language starting there ends no later. |
| `InstagramUrl.MatchAt` | bot.py:19 | A match found at a position is nonempty and ends at a stop boundary. |
| `InstagramUrl.HeaderAtComplete` | bot.py:19 | Whenever a choice of scheme, `www.` and post kind fits at a position, the recogniser commits to exactly that choice. So at most one choice fits. |
| `InstagramUrl.HeaderAtSound` | bot.py:19 | The choice the recogniser commits to does fit the text. |
| `InstagramUrl.RunEnd` | bot.py:19 | The shortcode run is maximal: every character up to its end is in `[A-Za-z0-9_-]`, and the next one is not, or the text ends. |
| `InstagramUrl.NonSpaceEnd` | bot.py:19 | The path run is maximal: it contains no whitespace, and it is followed by whitespace or the end of the text. |
| `InstagramUrl.RunEndCovers` | bot.py:19 | Every shortcode run from a position ends no later than the greedy scan from there. |
| `InstagramUrl.MatchesSlice` | bot.py:27-28 | A match cut out of its text is itself a whole string of the pattern's shape. |
| `InstagramUrl.MatchesNoWhitespace` | bot.py:19 | No character inside a match is whitespace. |
| `UrlExamples.ExtractFromStart` | bot.py:26-28 | A text that starts with a match yields the match found at position 0. |
| `UrlExamples.QueryIsDropped` | bot.py:18-20 | `https://instagram.com/reel/ABC?x=1` yields `https://instagram.com/reel/ABC`. |
| `UrlExamples.PathAfterSlashIsKept` | bot.py:18-20 | `http://instagram.com/tv/X_/?a b` yields `http://instagram.com/tv/X_/?a`. A `/` after the shortcode carries the match, query included, up to the whitespace. |
| `FileSelection.FindDownloadedFile` | bot.py:57-69 | The result is a listed entry with a video suffix. There is none exactly when no entry has a video suffix. The first entry with the expected stem and a video suffix wins. Failing that, the first video entry wins. |
| `FileSelection.DownloadVideo` | bot.py:31-72 | A library failure or missing info gives no file. After a finished run, a file is returned exactly when the directory holds a video, and it is a listed video entry. The first video entry with the expected stem wins. Failing that, the first video entry wins. |
| `MessageHandler.Respond` | bot.py:80-134 | No link means no action at all. Otherwise the handler first shows the upload indicator. If the extractor left no video file, or the chosen file is gone, it gives the "unavailable" reply. A file over 50 MiB gives the "too large" reply and no upload. A file of at most 50 MiB is uploaded. After a successful upload the original is deleted, and after a failed one the error reply is sent. No upload ever exceeds 50 MiB, and a deletion always directly follows a successful upload. |
| `MessageHandler.HandleMessage` | bot.py:75-134 | The handler stays silent exactly when the update has no text or the text holds no link. Otherwise it shows the upload indicator first. With no video file, or with the chosen file gone, it gives the "unavailable" reply. A file over 50 MiB gives the "too large" reply. A file of at most 50 MiB is uploaded, then the original is deleted on success or the error reply is sent on failure. No upload ever exceeds 50 MiB, and a deletion always directly follows a successful upload. |
| `InstagramClient.Login` | instagram_client.py:65-92 | A missing username or password raises the credentials `ValueError` with no effect and no state change. Login succeeds exactly when the saved session restores or a fresh login and the session save both succeed. A failure leaves the state as it was. With both credentials set, a restore is tried exactly when the session file exists, and a fresh login happens exactly when there is no file or the restore failed. The session is saved exactly after a successful fresh login, never after a restore. |
| `InstagramClient.GetClient` | instagram_client.py:53-63 | A client is created exactly when none exists. A logged-in session is returned as it is, with no login attempt. Otherwise the outcome is the login's outcome. On success the client exists and is logged in. |
| `InstagramClient.FetchByType` | instagram_client.py:122-142 | Type 1 gives one file of kind photo, type 2 one video, and type 8 all album files as an album. A failing download raises its error. Any other type raises `ValueError` without downloading anything. |
| `InstagramClient.Download` | instagram_client.py:94-142 | Without the library it raises `RuntimeError` and does nothing. A failed login raises the login's exception. A failing media-id lookup or info fetch raises the library's own exception. Once the media type is known, the result is the dispatch by that type: the downloaded files and their kind, or the download's exception. A success means a logged-in client and a known media type. The post is looked up only after a login in this call or in an earlier one. A logged-in session stays as it is. The lookups and downloads never change the session: it is what getting the client left. |
| `InstagramClient.Reset` | instagram_client.py:144-151 | Afterwards there is no client, no login and no session file. The file is deleted exactly when it existed. |
| `InstagramClient.DownloadInstagramMedia` | instagram_client.py:160-203 | Never raises. There is no path exactly when the kind is unknown, and the kind is never album. Without the library the result is no file and nothing happens. A path means the post was fetched by a logged-in client. The session invariant is kept. The session file disappears only by a deletion. |
| `InstagramClient.IsAvailable` | instagram_client.py:206-214 | True exactly when the library imported and both credentials are nonempty. |
| `InstagramClient.Initial` | instagram_client.py:49-51 | The shared client starts with no client object and no login, which satisfies the session invariant: a login implies a client and a session file. |
| `InstagramClient.Serve` | instagram_client.py:157 | Every request on the one shared client gets a result. Through any series of requests, a login never outlives its client or the session file behind it, after each request and at the end. |
| `InstagramClient.LoggedInSessionIsReused` | instagram_client.py:53-63 | A request on a logged-in session creates no client and attempts no login, neither a restore nor a fresh one. The session either stays unchanged or is reset completely. |
| `InstagramClient.ResetExactlyOnExpiredLogin` | instagram_client.py:189-200 | The session is dropped exactly when the download raised something other than a `ValueError` whose text reports an expired login. Then the client, the login and the session file are all gone, and the only added effect is deleting the file if it existed. In every other case the session and the effects are the download's own. |
| `InstagramClient.WrapperReportsFirstFile` | instagram_client.py:174-187 | A path is reported exactly when the download returned at least one file. It is the first file, and an album is reported as a photo. |
| `InstagramClient.FreshStartAfterReset` | instagram_client.py:76-92 | After a reset the next download creates a client and goes straight to a fresh login with no restore attempt. It ends logged in exactly when that login and the session save succeed. |
| `InstagramClient.UnavailableFetchesNothing` | instagram_client.py:170-172 | Without the library or without credentials, a client that has not logged in returns no file. It attempts no login, looks nothing up and leaves the session file alone. |
| `InstagramClient.AvailableClientFetches` | instagram_client.py:53-187 | With the library and both credentials, a client that has not logged in fetches a video when the login and every later call succeed. It ends logged in. Together with the previous row, a fresh client can return a file exactly when the client is available. |
| `InstagramClient.NeedsLoginInContext` | instagram_client.py:198 | A text that passes the expired-login test still passes with text added around it. |
| `InstagramClient.BothSpellingsNeeded` | instagram_client.py:198 | An error message carrying the text `LoginRequired` is caught only by the case-sensitive test. One carrying the shouted error code `LOGIN_REQUIRED` is caught only by the folded test. |
| `Basics.Contains` | instagram_client.py:198 | Python's `needle in hay`: true exactly when the needle occurs at some position. |
| `Basics.LowerAscii` | instagram_client.py:198 | Case folding keeps the length. It moves each ASCII capital to its lower-case letter, 32 code points up, and keeps every other character. |

## Left out

- Telegram calls (`send_chat_action`, `send_video`, `reply_text`, `delete`) appear only as the actions they stand for. A failure of the indicator call or of a reply is not modelled. Those errors propagate out of the handler.
- The upload caption and the reply texts are left out, because they are formatting only.
- The extractor library is left out: `extract_info`, `prepare_filename`, the format string and its own `max_filesize` option. Its run is an input: it raised, gave no info, or finished with a base name and a directory listing. The listing is taken in the order the directory yields it.
- `tempfile`, `asyncio` and `run_in_executor` are left out. They concern resource lifetime and threads, not decisions.
- Logging and environment reads are left out. The credentials and the library's presence are parameters (`Config`), and an unset variable reads as the empty string.
- `main.py` is not part of this model. It holds the web server, the webhook routes and start-up.
- `create_application` is left out, and with it the handler's registration filter `filters.TEXT & ~filters.COMMAND` (bot.py:144-146). A command message never reaches `handle_message`, but `MessageHandler.HandleMessage` would answer a command that carries a link. Its `text` stands for a message that passed the filter.
- The regular expression engine is not modelled in general. Only the one pattern is hand-coded.
- `Basics.LowerAscii`: Python's `str.lower()` is modelled as ASCII folding. Only two non-ASCII characters lower into ASCII letters: U+212A into `k` and U+0130 into `i` followed by a combining dot. Neither can form `login_required`, so the substring test gives the same verdict either way.
- The instagrapi calls are left out: `Client()` and its delay setting, `load_settings`, `login`, `dump_settings`, the media lookups and the downloads. Each is an outcome in `Remote`. A restore is one outcome covering both `load_settings` and `login`. A failing `Client()` constructor is not modelled.
- `InstagramClient.Login`: after a fresh login whose session save fails, the remote account is logged in but the flag stays false. The model keeps only the flag.
- `InstagramClient.FetchByType`: the `ValueError` for an unknown type omits the numeric code from its text. The wrapper never reads a `ValueError`'s text.
- `InstagramClient.Reset`: a failing file deletion, and the exception it would raise out of the wrapper's handler, are not modelled.

=== FILE: basics.dfy ===
/** Small shared vocabulary: an optional value and literal matching inside strings. */
module Basics {

  /** Python's `X | None`. */
  datatype Option<+T> = None | Some(value: T)

  /** Index of the first present entry of `xs` at or after `from`. */
  function FirstSome<T>(xs: seq<Option<T>>, from: nat): (r: Option<nat>)
    requires from <= |xs|
    ensures r.Some? ==> from <= r.value < |xs| && xs[r.value].Some?
    ensures r.Some? ==> forall k | from <= k < r.value :: xs[k].None?
    ensures r.None? ==> forall k | from <= k < |xs| :: xs[k].None?
    decreases |xs| - from
  {
    if from == |xs| then None
    else if xs[from].Some? then Some(from)
    else FirstSome(xs, from + 1)
  }

  /** `lit` occurs in `text` starting exactly at index `i`. */
  predicate LitAt(text: string, i: nat, lit: string) {
    i + |lit| <= |text| && forall m {:trigger lit[m]} | 0 <= m < |lit| :: text[i + m] == lit[m]
  }

  /** A literal occurrence pins down every character it covers. */
  lemma LitAtChar(text: string, i: nat, lit: string, m: nat)
    requires LitAt(text, i, lit)
    requires m < |lit|
    ensures text[i + m] == lit[m]
  {
  }

  /** Two literals that differ at a position covered by both cannot occur at the same index. */
  lemma LitAtDiffers(text: string, i: nat, x: string, y: string, m: nat)
    requires LitAt(text, i, x)
    requires m < |x| && m < |y| && x[m] != y[m]
    ensures !LitAt(text, i, y)
  {
    assert text[i + m] == x[m];
  }

  /** A literal inside `text[lo..hi]` is found in the slice, shifted by `lo`. */
  lemma LitAtSlice(text: string, lo: nat, hi: nat, q: nat, lit: string)
    requires lo <= q && q + |lit| <= hi <= |text|
    requires LitAt(text, q, lit)
    ensures LitAt(text[lo..hi], q - lo, lit)
  {
    forall m | 0 <= m < |lit| ensures text[lo..hi][q - lo + m] == lit[m] {
      LitAtChar(text, q, lit, m);
    }
  }

  /** Declarative substring test: `needle` occurs somewhere in `hay` at or after `from`. */
  ghost predicate OccursFrom(hay: string, needle: string, from: nat) {
    exists k: nat :: from <= k && LitAt(hay, k, needle)
  }

  /** Python's `needle in hay`, scanning start positions left to right. */
  function ContainsFrom(hay: string, needle: string, from: nat): (b: bool)
    ensures b <==> OccursFrom(hay, needle, from)
    decreases |hay| - from
  {
    if from + |needle| > |hay| then
      false
    else if LitAt(hay, from, needle) then
      true
    else
      ContainsFrom(hay, needle, from + 1)
  }

  function Contains(hay: string, needle: string): (b: bool)
    ensures b <==> exists k: nat :: LitAt(hay, k, needle)
  {
    ContainsFrom(hay, needle, 0)
  }

  function LowerChar(c: char): char {
    if 'A' <= c <= 'Z' then (c as int + 32) as char else c
  }

  /** Letter-case folding of the ASCII range; every other character is kept. */
  function LowerAscii(s: string): (r: string)
    ensures |r| == |s|
    ensures forall k | 0 <= k < |s| && 'A' <= s[k] <= 'Z' :: r[k] as int == s[k] as int + 32
    ensures forall k | 0 <= k < |s| && !('A' <= s[k] <= 'Z') :: r[k] == s[k]
  {
    seq(|s|, k requires 0 <= k < |s| => LowerChar(s[k]))
  }
}

=== FILE: file_selection.dfy ===
/**
  Picking the downloaded file out of the scratch directory once the extractor
  library has finished (bot.py, `download_video`). The library itself is an
  oracle: its run is summarised by `ExtractorRun`, and the directory listing
  and the expected file stem are inputs.
*/
module FileSelection {
  import opened Basics

  /** One directory entry, split the way `Path.stem` and `Path.suffix` split a file name. */
  datatype DirEntry = DirEntry(stem: string, suffix: string)

  /** The suffixes the bot accepts as a video container. */
  const VideoSuffixes: seq<string> := [".mp4", ".mov", ".mkv", ".webm"]

  predicate IsVideo(e: DirEntry) {
    e.suffix in VideoSuffixes
  }

  /** A video file carrying the name the extractor said it would write. */
  predicate IsPreferred(e: DirEntry, base: string) {
    e.stem == base && IsVideo(e)
  }

  /** `listing[k]` is the first preferred entry in listing order. */
  ghost predicate FirstPreferred(listing: seq<DirEntry>, base: string, k: nat) {
    k < |listing| && IsPreferred(listing[k], base)
    && forall m | 0 <= m < k :: !IsPreferred(listing[m], base)
  }

  /** `listing[k]` is the first video entry in listing order. */
  ghost predicate FirstVideo(listing: seq<DirEntry>, k: nat) {
    k < |listing| && IsVideo(listing[k])
    && forall m | 0 <= m < k :: !IsVideo(listing[m])
  }

  /**
    The two scans of the directory: first an entry with the expected stem and a
    video suffix, otherwise any video entry, otherwise nothing.
  */
  method FindDownloadedFile(listing: seq<DirEntry>, base: string) returns (r: Option<DirEntry>)
    ensures r.Some? ==> r.value in listing && IsVideo(r.value)
    ensures r.None? <==> forall k | 0 <= k < |listing| :: !IsVideo(listing[k])
    ensures (exists k | 0 <= k < |listing| :: IsPreferred(listing[k], base)) ==>
              exists k: nat :: FirstPreferred(listing, base, k) && r == Some(listing[k])
    ensures (forall k | 0 <= k < |listing| :: !IsPreferred(listing[k], base)) && r.Some? ==>
              exists k: nat :: FirstVideo(listing, k) && r == Some(listing[k])
  {
    for i := 0 to |listing|
      invariant forall k | 0 <= k < i :: !IsPreferred(listing[k], base)
    {
      if IsPreferred(listing[i], base) {
        assert FirstPreferred(listing, base, i);
        return Some(listing[i]);
      }
    }
    for i := 0 to |listing|
      invariant forall k | 0 <= k < i :: !IsVideo(listing[k])
    {
      if IsVideo(listing[i]) {
        assert FirstVideo(listing, i);
        return Some(listing[i]);
      }
    }
    return None;
  }

  /** How the extractor library's run ended: it raised, returned no info, or wrote files. */
  datatype ExtractorRun =
    | Raised
    | NoInfo
    | Finished(base: string, listing: seq<DirEntry>)

  /** `download_video`: every failure of the library becomes "no file". */
  method DownloadVideo(run: ExtractorRun) returns (path: Option<DirEntry>)
    ensures path.Some? ==> run.Finished? && path.value in run.listing && IsVideo(path.value)
    ensures run.Finished? ==>
              (path.None? <==> forall k | 0 <= k < |run.listing| :: !IsVideo(run.listing[k]))
    ensures run.Finished? && (exists k | 0 <= k < |run.listing| :: IsPreferred(run.listing[k], run.base)) ==>
              exists k: nat :: FirstPreferred(run.listing, run.base, k) && path == Some(run.listing[k])
    ensures run.Finished? && (forall k | 0 <= k < |run.listing| :: !IsPreferred(run.listing[k], run.base))
            && path.Some? ==>
              exists k: nat :: FirstVideo(run.listing, k) && path == Some(run.listing[k])
  {
    match run
    case Raised => path := None;
    case NoInfo => path := None;
    case Finished(base, listing) => path := FindDownloadedFile(listing, base);
  }
}

=== FILE: instagram_client.dfy ===
/**
  The authenticated fallback client (instagram_client.py): a process-wide
  session with three pieces of state, the download by media type, and the
  public wrapper that turns every failure into "no file, unknown kind".

  The library calls (login, session load/save, media lookup, downloads) are
  not modelled; their outcomes for one request are fixed in advance in a
  `Remote`. Operations are pure functions from the session state before a call
  to the result, the state after it, and the side effects performed, in order.
*/
module InstagramClient {
  import opened Basics

  const MediaTypePhoto: int := 1
  const MediaTypeVideo: int := 2
  const MediaTypeAlbum: int := 8

  /** An exception as the handlers see it: whether it is a `ValueError`, and its text. */
  datatype Exc = Exc(isValueError: bool, text: string)

  /** What a call did: returned a value or raised. */
  datatype Call<T> = Returned(value: T) | Raised(exc: Exc)

  const MissingCredentials: Exc :=
    Exc(true, "INSTAGRAM_USERNAME and INSTAGRAM_PASSWORD must be set in environment variables for instagrapi")
  const UnknownMediaType: Exc := Exc(true, "Unknown media_type")
  const NotInstalled: Exc := Exc(false, "instagrapi is not installed")

  /** Media kinds: what `download` reports, and `Unknown` for the wrapper's failures. */
  datatype Kind = Photo | Video | Album | Unknown

  /** The shared client: an instance exists, it is logged in, the session file is on disk. */
  datatype Session = Session(hasClient: bool, loggedIn: bool, sessionFile: bool)

  /**
    A logged-in flag never outlives the client it belongs to, and a login is
    always backed by a session file on disk: a restore reads one, a fresh
    login counts only once it has written one.
  */
  predicate Valid(s: Session) {
    s.loggedIn ==> s.hasClient && s.sessionFile
  }

  /** The state at import time; a session file may be left over from an earlier process. */
  function Initial(fileOnDisk: bool): (s: Session)
    ensures Valid(s) && !s.hasClient && !s.loggedIn
  {
    Session(false, false, fileOnDisk)
  }

  /** What the process environment provides: the library imported, and the two credentials (unset reads as ""). */
  datatype Config = Config(libraryAvailable: bool, username: string, password: string)

  predicate HasCredentials(cfg: Config) {
    cfg.username != "" && cfg.password != ""
  }

  /** Outcomes of the library calls one request may make. */
  datatype Remote = Remote(
    restore: bool,            // loading the session file and logging in with it both succeed
    login: Call<()>,          // a fresh login
    dump: Call<()>,           // writing the session file after a fresh login
    mediaPk: Call<()>,        // resolving the URL to a media id
    mediaInfo: Call<int>,     // fetching the post's `media_type`
    photo: Call<string>,      // downloading a photo
    video: Call<string>,      // downloading a video
    album: Call<seq<string>>  // downloading every item of an album
  )

  /** Side effects on the library, the network and the session file. */
  datatype Effect =
    | CreateClient
    | RestoreSession
    | FreshLogin
    | SaveSession
    | LookupMedia
    | FetchMediaInfo
    | DownloadMedia(kind: Kind)
    | DeleteSessionFile

  predicate IsLoginAttempt(e: Effect) {
    e == RestoreSession || e == FreshLogin
  }

  datatype Step<T> = Step(result: Call<T>, after: Session, effects: seq<Effect>)

  /**
    `_login`: with both credentials set, restore the saved session if its file
    exists; if there is no file or restoring fails, log in afresh and save the
    session. A failure leaves the state as it was.
  */
  function Login(s: Session, cfg: Config, remote: Remote): (r: Step<()>)
    requires s.hasClient
    ensures !HasCredentials(cfg) ==> r == Step(Raised(MissingCredentials), s, [])
    ensures r.result.Returned? <==>
              HasCredentials(cfg)
              && ((s.sessionFile && remote.restore) || (remote.login.Returned? && remote.dump.Returned?))
    ensures r.result.Returned? ==> r.after.hasClient && r.after.loggedIn && r.after.sessionFile
    ensures r.result.Raised? ==> r.after == s
    ensures (RestoreSession in r.effects) <==> HasCredentials(cfg) && s.sessionFile
    ensures (FreshLogin in r.effects) <==> HasCredentials(cfg) && !(s.sessionFile && remote.restore)
    ensures (SaveSession in r.effects) <==> (FreshLogin in r.effects) && remote.login.Returned?
    ensures CreateClient !in r.effects && DeleteSessionFile !in r.effects
  {
    if !HasCredentials(cfg) then
      Step(Raised(MissingCredentials), s, [])
    else if s.sessionFile && remote.restore then
      Step(Returned(()), s.(loggedIn := true), [RestoreSession])
    else
      var tried := if s.sessionFile then [RestoreSession] else [];
      match remote.login
      case Raised(e) => Step(Raised(e), s, tried + [FreshLogin])
      case Returned(_) =>
        match remote.dump
        case Raised(e) => Step(Raised(e), s, tried + [FreshLogin, SaveSession])
        case Returned(_) =>
          Step(Returned(()), s.(loggedIn := true, sessionFile := true), tried + [FreshLogin, SaveSession])
  }

  /** `_get_client`: create the client if there is none, then log in unless already logged in. */
  function GetClient(s: Session, cfg: Config, remote: Remote): (r: Step<()>)
    ensures (CreateClient in r.effects) <==> !s.hasClient
    ensures r.result.Returned? ==> r.after.hasClient && r.after.loggedIn
    ensures r.result.Raised? ==> r.after == s.(hasClient := true)
    ensures s.loggedIn ==> r.result.Returned? && r.after == s.(hasClient := true)
                           && RestoreSession !in r.effects && FreshLogin !in r.effects
    ensures !s.loggedIn ==> r.result == Login(s.(hasClient := true), cfg, remote).result
    ensures r.after.sessionFile == s.sessionFile || r.after.sessionFile
    ensures DeleteSessionFile !in r.effects
  {
    var created := if s.hasClient then [] else [CreateClient];
    var s1 := s.(hasClient := true);
    if s1.loggedIn then
      Step(Returned(()), s1, created)
    else
      var l := Login(s1, cfg, remote);
      Step(l.result, l.after, created + l.effects)
  }

  /** The `media_type` dispatch of `download`, once the post's type is known. */
  function FetchByType(mediaType: int, remote: Remote): (r: (Call<(seq<string>, Kind)>, seq<Effect>))
    ensures mediaType == MediaTypePhoto ==>
              r.0 == (if remote.photo.Returned? then Returned(([remote.photo.value], Photo)) else Raised(remote.photo.exc))
    ensures mediaType == MediaTypeVideo ==>
              r.0 == (if remote.video.Returned? then Returned(([remote.video.value], Video)) else Raised(remote.video.exc))
    ensures mediaType == MediaTypeAlbum ==>
              r.0 == (if remote.album.Returned? then Returned((remote.album.value, Album)) else Raised(remote.album.exc))
    ensures mediaType !in {MediaTypePhoto, MediaTypeVideo, MediaTypeAlbum} ==>
              r.0 == Raised(UnknownMediaType) && r.1 == []
    ensures r.0.Returned? ==> r.0.value.1 != Unknown && r.1 == [DownloadMedia(r.0.value.1)]
    ensures r.0.Returned? && r.0.value.1 != Album ==> |r.0.value.0| == 1
  {
    if mediaType == MediaTypePhoto then
      match remote.photo
      case Returned(p) => (Returned(([p], Photo)), [DownloadMedia(Photo)])
      case Raised(e) => (Raised(e), [DownloadMedia(Photo)])
    else if mediaType == MediaTypeVideo then
      match remote.video
      case Returned(v) => (Returned(([v], Video)), [DownloadMedia(Video)])
      case Raised(e) => (Raised(e), [DownloadMedia(Video)])
    else if mediaType == MediaTypeAlbum then
      match remote.album
      case Returned(fs) => (Returned((fs, Album)), [DownloadMedia(Album)])
      case Raised(e) => (Raised(e), [DownloadMedia(Album)])
    else
      (Raised(UnknownMediaType), [])
  }

  /** `InstagramClient.download`: the files of one post and its kind, or the exception raised. */
  function Download(s: Session, cfg: Config, remote: Remote): (r: Step<(seq<string>, Kind)>)
    ensures !cfg.libraryAvailable ==> r == Step(Raised(NotInstalled), s, [])
    ensures r.result.Returned? ==>
              r.after.hasClient && r.after.loggedIn && r.result.value.1 != Unknown
              && remote.mediaPk.Returned? && remote.mediaInfo.Returned?
              && remote.mediaInfo.value in {MediaTypePhoto, MediaTypeVideo, MediaTypeAlbum}
    ensures LookupMedia in r.effects ==>
              r.after.loggedIn && (s.loggedIn || RestoreSession in r.effects || FreshLogin in r.effects)
    ensures Valid(s) ==> Valid(r.after)
    ensures s.loggedIn && cfg.libraryAvailable ==> r.after == s.(hasClient := true)
    ensures cfg.libraryAvailable ==> r.after == GetClient(s, cfg, remote).after
    ensures r.after.sessionFile == s.sessionFile || r.after.sessionFile
    ensures DeleteSessionFile !in r.effects
    ensures r.result.Returned? ==> r.result == FetchByType(remote.mediaInfo.value, remote).0
    ensures cfg.libraryAvailable && GetClient(s, cfg, remote).result.Raised? ==>
              r.result == Raised(GetClient(s, cfg, remote).result.exc)
    ensures (cfg.libraryAvailable && GetClient(s, cfg, remote).result.Returned? && remote.mediaPk.Raised?) ==>
              r.result == Raised(remote.mediaPk.exc)
    ensures (cfg.libraryAvailable && GetClient(s, cfg, remote).result.Returned? && remote.mediaPk.Returned?
             && remote.mediaInfo.Raised?) ==>
              r.result == Raised(remote.mediaInfo.exc)
    ensures (cfg.libraryAvailable && GetClient(s, cfg, remote).result.Returned? && remote.mediaPk.Returned?
             && remote.mediaInfo.Returned?) ==>
              r.result == FetchByType(remote.mediaInfo.value, remote).0
  {
    if !cfg.libraryAvailable then
      Step(Raised(NotInstalled), s, [])
    else
      var g := GetClient(s, cfg, remote);
      match g.result
      case Raised(e) => Step(Raised(e), g.after, g.effects)
      case Returned(_) =>
        var looked := g.effects + [LookupMedia];
        match remote.mediaPk
        case Raised(e) => Step(Raised(e), g.after, looked)
        case Returned(_) =>
          var informed := looked + [FetchMediaInfo];
          match remote.mediaInfo
          case Raised(e) => Step(Raised(e), g.after, informed)
          case Returned(t) =>
            var (res, fx) := FetchByType(t, remote);
            Step(res, g.after, informed + fx)
  }

  /** `reset`: drop the client, forget the login, delete the session file if it is there. */
  function Reset(s: Session): (r: (Session, seq<Effect>))
    ensures !r.0.hasClient && !r.0.loggedIn && !r.0.sessionFile && Valid(r.0)
    ensures (DeleteSessionFile in r.1) <==> s.sessionFile
    ensures forall n | 0 <= n < |r.1| :: r.1[n] == DeleteSessionFile
  {
    (Session(false, false, false), if s.sessionFile then [DeleteSessionFile] else [])
  }

  /** The expired-session test on an exception's text: either spelling of the login-required error. */
  predicate NeedsLogin(text: string) {
    Contains(LowerAscii(text), "login_required") || Contains(text, "LoginRequired")
  }

  /** Result of the public wrapper: a file path (or none) and its kind, plus the session afterwards. */
  datatype Fetched = Fetched(path: Option<string>, kind: Kind, after: Session, effects: seq<Effect>)

  /**
    `download_instagram_media`: never raises. An album is reported as its first
    file, tagged a photo; every failure is reported as no file of unknown kind,
    and a failure whose text says the login expired also resets the session.
  */
  function DownloadInstagramMedia(s: Session, cfg: Config, remote: Remote): (r: Fetched)
    ensures r.path.None? <==> r.kind == Unknown
    ensures r.kind != Album
    ensures !cfg.libraryAvailable ==> r == Fetched(None, Unknown, s, [])
    ensures r.path.Some? ==> remote.mediaInfo.Returned? && r.after.loggedIn
    ensures Valid(s) ==> Valid(r.after)
    ensures s.sessionFile && !r.after.sessionFile ==> DeleteSessionFile in r.effects
  {
    if !cfg.libraryAvailable then
      Fetched(None, Unknown, s, [])
    else
      var d := Download(s, cfg, remote);
      match d.result
      case Returned((files, kind)) =>
        if |files| == 0 then Fetched(None, Unknown, d.after, d.effects)
        else if kind == Album then Fetched(Some(files[0]), Photo, d.after, d.effects)
        else Fetched(Some(files[0]), kind, d.after, d.effects)
      case Raised(e) =>
        if e.isValueError then
          Fetched(None, Unknown, d.after, d.effects)
        else if NeedsLogin(e.text) then
          var (reset, fx) := Reset(d.after);
          Fetched(None, Unknown, reset, d.effects + fx)
        else
          Fetched(None, Unknown, d.after, d.effects)
  }

  /** `is_available`: the library imported and both credentials are set. */
  function IsAvailable(cfg: Config): (b: bool)
    ensures b <==> cfg.libraryAvailable && cfg.username != "" && cfg.password != ""
  {
    cfg.libraryAvailable && HasCredentials(cfg)
  }

  /**
    The shared client serving a series of requests, one `Remote` each. No
    sequence of requests breaks the session invariant, after any request or
    at the end.
  */
  function Serve(s: Session, cfg: Config, remotes: seq<Remote>): (r: (Session, seq<Fetched>))
    ensures |r.1| == |remotes|
    ensures Valid(s) ==> Valid(r.0) && forall n | 0 <= n < |r.1| :: Valid(r.1[n].after)
    decreases |remotes|
  {
    if |remotes| == 0 then (s, [])
    else
      var f := DownloadInstagramMedia(s, cfg, remotes[0]);
      var rest := Serve(f.after, cfg, remotes[1..]);
      (rest.0, [f] + rest.1)
  }

  /**
    A logged-in session is reused as it is: no client is created and no login
    is attempted, and the session either survives the request unchanged or is
    reset completely.
  */
  lemma LoggedInSessionIsReused(s: Session, cfg: Config, remote: Remote)
    requires Valid(s) && s.loggedIn
    ensures var r := DownloadInstagramMedia(s, cfg, remote);
            CreateClient !in r.effects && (forall n | 0 <= n < |r.effects| :: !IsLoginAttempt(r.effects[n]))
            && (r.after == s || r.after == Session(false, false, false))
  {
    var r := DownloadInstagramMedia(s, cfg, remote);
    if cfg.libraryAvailable {
      var g := GetClient(s, cfg, remote);
      assert g.effects == [];
      var d := Download(s, cfg, remote);
      assert d.effects[..0] == [];
      assert CreateClient !in d.effects && RestoreSession !in d.effects && FreshLogin !in d.effects;
    }
  }

  /**
    The session is dropped exactly when the download raised something other
    than a `ValueError` whose text reports an expired login. Then the client,
    the login and the session file are all gone; otherwise the session and
    the effects are the download's own.
  */
  lemma ResetExactlyOnExpiredLogin(s: Session, cfg: Config, remote: Remote)
    requires cfg.libraryAvailable
    ensures var d := Download(s, cfg, remote);
            var r := DownloadInstagramMedia(s, cfg, remote);
            var expired := d.result.Raised? && !d.result.exc.isValueError && NeedsLogin(d.result.exc.text);
            (!r.after.hasClient <==> expired)
            && (expired ==> r.after == Session(false, false, false) && r.effects == d.effects + Reset(d.after).1)
            && (!expired ==> r.after == d.after && r.effects == d.effects)
  {
  }

  /** A successful download is reported as its first file; an album counts as a photo. */
  lemma WrapperReportsFirstFile(s: Session, cfg: Config, remote: Remote)
    requires cfg.libraryAvailable
    ensures var d := Download(s, cfg, remote);
            var r := DownloadInstagramMedia(s, cfg, remote);
            (r.path.Some? <==> d.result.Returned? && |d.result.value.0| > 0)
            && (r.path.Some? ==> r.path.value == d.result.value.0[0]
                                 && r.kind == (if d.result.value.1 == Album then Photo else d.result.value.1))
  {
  }

  /**
    After a reset the next request starts from scratch: it creates a client and,
    the session file being gone, logs in afresh without trying to restore.
  */
  lemma FreshStartAfterReset(s: Session, cfg: Config, remote: Remote)
    requires IsAvailable(cfg)
    ensures var d := Download(Reset(s).0, cfg, remote);
            d.effects[0] == CreateClient && d.effects[1] == FreshLogin
            && RestoreSession !in d.effects
            && (d.after.loggedIn <==> remote.login.Returned? && remote.dump.Returned?)
  {
    var s0 := Reset(s).0;
    var l := Login(s0.(hasClient := true), cfg, remote);
    assert l.effects[0] == FreshLogin;
  }

  /**
    Without the library or without credentials, a client that has not logged in
    yet never reaches the network: nothing is looked up and nothing is returned.
  */
  lemma UnavailableFetchesNothing(s: Session, cfg: Config, remote: Remote)
    requires !IsAvailable(cfg) && !s.loggedIn
    ensures var r := DownloadInstagramMedia(s, cfg, remote);
            r.path.None? && r.kind == Unknown && r.after.sessionFile == s.sessionFile
            && RestoreSession !in r.effects && FreshLogin !in r.effects && LookupMedia !in r.effects
  {
  }

  /**
    The converse: with the library and both credentials, a client that has not
    logged in yet fetches a video whenever the login and every call after it
    succeed, and it ends logged in.
  */
  lemma AvailableClientFetches(s: Session, cfg: Config, remote: Remote)
    requires IsAvailable(cfg) && Valid(s) && !s.loggedIn
    requires remote.login.Returned? && remote.dump.Returned?
    requires remote.mediaPk.Returned? && remote.mediaInfo == Returned(MediaTypeVideo) && remote.video.Returned?
    ensures var r := DownloadInstagramMedia(s, cfg, remote);
            r.path == Some(remote.video.value) && r.kind == Video && r.after.loggedIn
            && LookupMedia in r.effects
  {
  }

  /** The expired-login test is about a substring: a text that passes it still passes with text added around it. */
  lemma {:induction false} NeedsLoginInContext(prefix: string, text: string, suffix: string)
    requires NeedsLogin(text)
    ensures NeedsLogin(prefix + text + suffix)
  {
    var whole := prefix + text + suffix;
    if Contains(LowerAscii(text), "login_required") {
      var k: nat :| LitAt(LowerAscii(text), k, "login_required");
      forall m | 0 <= m < |"login_required"|
        ensures LowerAscii(whole)[|prefix| + k + m] == "login_required"[m]
      {
        LitAtChar(LowerAscii(text), k, "login_required", m);
        assert whole[|prefix| + k + m] == text[k + m];
      }
      assert LitAt(LowerAscii(whole), |prefix| + k, "login_required");
    } else {
      var k: nat :| LitAt(text, k, "LoginRequired");
      forall m | 0 <= m < |"LoginRequired"|
        ensures whole[|prefix| + k + m] == "LoginRequired"[m]
      {
        LitAtChar(text, k, "LoginRequired", m);
      }
      assert LitAt(whole, |prefix| + k, "LoginRequired");
    }
  }

  /**
    The two spellings are both needed: the text `LoginRequired` in an error
    message passes only the case-sensitive test, the API error code
    `LOGIN_REQUIRED` only the folded one.
  */
  lemma BothSpellingsNeeded()
    ensures NeedsLogin("LoginRequired") && !Contains(LowerAscii("LoginRequired"), "login_required")
    ensures NeedsLogin("LOGIN_REQUIRED") && !Contains("LOGIN_REQUIRED", "LoginRequired")
  {
    ClassNameNotFolded();
    ShoutedCodeFolds();
    ShoutedCodeNotClassName();
  }

  lemma ClassNameNotFolded()
    ensures Contains("LoginRequired", "LoginRequired")
    ensures !Contains(LowerAscii("LoginRequired"), "login_required")
  {
    assert LitAt("LoginRequired", 0, "LoginRequired");
    assert |LowerAscii("LoginRequired")| < |"login_required"|;
  }

  lemma ShoutedCodeNotClassName()
    ensures !Contains("LOGIN_REQUIRED", "LoginRequired")
  {
    var t := "LOGIN_REQUIRED";
    assert LitAt(t, 0, "LO");
    LitAtDiffers(t, 0, "LO", "LoginRequired", 1);
    assert LitAt(t, 1, "O");
    LitAtDiffers(t, 1, "O", "LoginRequired", 0);
    forall k: nat | k >= 2 ensures !LitAt(t, k, "LoginRequired") {
      assert k + |"LoginRequired"| > |t|;
    }
  }

  lemma ShoutedCodeFolds()
    ensures Contains(LowerAscii("LOGIN_REQUIRED"), "login_required")
  {
    var folded := LowerAscii("LOGIN_REQUIRED");
    forall m | 0 <= m < 14 ensures folded[m] == "login_required"[m] {
      assert folded[m] == LowerChar("LOGIN_REQUIRED"[m]);
    }
    assert LitAt(folded, 0, "login_required");
  }
}

=== FILE: instagram_url.dfy ===
/**
  The link recogniser of the bot: a leftmost search for the single pattern

      https?://(?:www\.)?instagram\.com/(?:reel|p|tv)/[A-Za-z0-9_\-]+(?:/[^\s]*)?

  hand-coded over `string`. `Matches` is the pattern's language written
  declaratively (one witness per alternative and one split point for the
  optional tail); `MatchAt` and `Search` are the recogniser, and the
  lemmas tie the two together.
*/
module InstagramUrl {
  import opened Basics

  /** The character class `[A-Za-z0-9_\-]` of a post's shortcode. */
  predicate IsShortcodeChar(c: char) {
    ('A' <= c <= 'Z') || ('a' <= c <= 'z') || ('0' <= c <= '9') || c == '_' || c == '-'
  }

  /** The class `\s` of a str pattern: the code points for which Python's `str.isspace` holds. */
  predicate IsWhitespace(c: char) {
    var n := c as int;
    (0x09 <= n <= 0x0D) || (0x1C <= n <= 0x20) || n == 0x85 || n == 0xA0 || n == 0x1680
    || (0x2000 <= n <= 0x200A) || n == 0x2028 || n == 0x2029 || n == 0x202F || n == 0x205F
    || n == 0x3000
  }

  /** `https?://`: alternative 0 without the `s`, alternative 1 with it. */
  function Scheme(a: nat): string {
    if a == 0 then "http://" else "https://"
  }

  /** `(?:www\.)?`: alternative 0 skips it. */
  function Host(b: nat): string {
    if b == 0 then "" else "www."
  }

  const Domain: string := "instagram.com/"

  /** `(?:reel|p|tv)`. */
  function Kind(c: nat): string {
    if c == 0 then "reel" else if c == 1 then "p" else "tv"
  }

  predicate ValidChoice(a: nat, b: nat, c: nat) {
    a < 2 && b < 2 && c < 3
  }

  /** Length of the fixed part `scheme host instagram.com/ kind /` for one choice of alternatives. */
  function HeaderLen(a: nat, b: nat, c: nat): nat {
    |Scheme(a)| + |Host(b)| + |Domain| + |Kind(c)| + 1
  }

  /** The fixed part of the pattern, for the given alternatives, occurs at `i`. */
  predicate HeaderFits(text: string, i: nat, a: nat, b: nat, c: nat) {
    var p := i + |Scheme(a)|;
    var q := p + |Host(b)|;
    var r := q + |Domain|;
    && LitAt(text, i, Scheme(a))
    && LitAt(text, p, Host(b))
    && LitAt(text, q, Domain)
    && LitAt(text, r, Kind(c))
    && LitAt(text, r + |Kind(c)|, "/")
  }

  predicate ShortcodeSpan(text: string, lo: nat, hi: nat)
    requires lo <= hi <= |text|
  {
    forall m | lo <= m < hi :: IsShortcodeChar(text[m])
  }

  predicate NonSpaceSpan(text: string, lo: nat, hi: nat)
    requires lo <= hi <= |text|
  {
    forall m | lo <= m < hi :: !IsWhitespace(text[m])
  }

  /** The shortcode run of a tail ends at `k`; anything after it is `/` and non-whitespace. */
  predicate TailSplit(text: string, p: nat, k: nat, j: nat)
    requires p <= j <= |text|
  {
    p < k <= j && ShortcodeSpan(text, p, k)
    && (k == j || (text[k] == '/' && NonSpaceSpan(text, k + 1, j)))
  }

  /** `text[p..j]` is a nonempty shortcode run, optionally followed by `/` and non-whitespace. */
  ghost predicate TailAt(text: string, p: nat, j: nat)
    requires p <= j <= |text|
  {
    exists k: nat :: TailSplit(text, p, k, j)
  }

  /** `text[i..j]` is in the language, with the given alternatives for the fixed part. */
  ghost predicate MatchesWith(text: string, i: nat, j: nat, a: nat, b: nat, c: nat)
    requires i <= j <= |text|
  {
    ValidChoice(a, b, c) && i + HeaderLen(a, b, c) <= j && HeaderFits(text, i, a, b, c)
    && TailAt(text, i + HeaderLen(a, b, c), j)
  }

  /** `text[i..j]` belongs to the language of the pattern. */
  ghost predicate Matches(text: string, i: nat, j: nat)
    requires i <= j <= |text|
  {
    exists a: nat, b: nat, c: nat :: MatchesWith(text, i, j, a, b, c)
  }

  /** A whole string is written in the pattern's shape. */
  ghost predicate InPattern(u: string) {
    Matches(u, 0, |u|)
  }

  ghost predicate NoWhitespace(u: string) {
    forall m | 0 <= m < |u| :: !IsWhitespace(u[m])
  }

  /** No substring of `text` that starts at or after `from` is in the language. */
  ghost predicate NoMatchFrom(text: string, from: nat)
    requires from <= |text|
  {
    forall k: nat, j: nat | from <= k <= j <= |text| :: !Matches(text, k, j)
  }

  /**
    Where a match can stop: at the end of the text, before whitespace, or
    before a character that neither continues the shortcode nor opens a path.
  */
  predicate StopsAt(text: string, e: nat)
    requires e <= |text|
  {
    e == |text| || IsWhitespace(text[e]) || (text[e] != '/' && !IsShortcodeChar(text[e]))
  }

  /** `text[s..e]` is the match a regex search reports: none starts earlier, none at `s` is longer. */
  ghost predicate LeftmostLongest(text: string, s: nat, e: nat)
    requires s <= e <= |text|
  {
    && Matches(text, s, e)
    && (forall k: nat, j: nat | k < s && k <= j <= |text| :: !Matches(text, k, j))
    && (forall j: nat | e < j <= |text| :: !Matches(text, s, j))
  }

  // ---------------------------------------------------------------------------
  // The recogniser

  /** `https?://`: the `s` is optional and greedy, so the longer scheme is tried first. */
  function SchemeAt(text: string, i: nat): (r: Option<nat>)
    ensures r.Some? ==> r.value < 2 && LitAt(text, i, Scheme(r.value))
  {
    if LitAt(text, i, Scheme(1)) then Some(1)
    else if LitAt(text, i, Scheme(0)) then Some(0)
    else None
  }

  /** `(?:www\.)?`, greedy. */
  function HostAt(text: string, i: nat): (b: nat)
    ensures b < 2 && (b == 1 ==> LitAt(text, i, Host(1)))
  {
    if LitAt(text, i, Host(1)) then 1 else 0
  }

  /** `(?:reel|p|tv)`, alternatives in order. */
  function KindAt(text: string, i: nat): (r: Option<nat>)
    ensures r.Some? ==> r.value < 3 && LitAt(text, i, Kind(r.value))
  {
    if LitAt(text, i, Kind(0)) then Some(0)
    else if LitAt(text, i, Kind(1)) then Some(1)
    else if LitAt(text, i, Kind(2)) then Some(2)
    else None
  }

  /** The alternatives the engine commits to for the fixed part of a match at `i`, if any. */
  function HeaderAt(text: string, i: nat): (r: Option<(nat, nat, nat)>)
    ensures r.Some? ==> ValidChoice(r.value.0, r.value.1, r.value.2)
  {
    match SchemeAt(text, i)
    case None => None
    case Some(a) => HeaderAfterScheme(text, i, a)
  }

  function HeaderAfterScheme(text: string, i: nat, a: nat): (r: Option<(nat, nat, nat)>)
    requires a < 2
    ensures r.Some? ==> ValidChoice(r.value.0, r.value.1, r.value.2) && r.value.0 == a
  {
    HeaderAfterHost(text, i, a, HostAt(text, i + |Scheme(a)|))
  }

  function HeaderAfterHost(text: string, i: nat, a: nat, b: nat): (r: Option<(nat, nat, nat)>)
    requires a < 2 && b < 2
    ensures r.Some? ==> ValidChoice(r.value.0, r.value.1, r.value.2) && r.value.0 == a && r.value.1 == b
  {
    var q := i + |Scheme(a)| + |Host(b)|;
    if !LitAt(text, q, Domain) then None
    else
      match KindAt(text, q + |Domain|)
      case None => None
      case Some(c) =>
        if LitAt(text, q + |Domain| + |Kind(c)|, "/") then Some((a, b, c)) else None
  }

  /** End of the maximal shortcode run starting at `j`: `[A-Za-z0-9_\-]+` is greedy. */
  function RunEnd(text: string, j: nat): (k: nat)
    requires j <= |text|
    ensures j <= k <= |text|
    ensures ShortcodeSpan(text, j, k)
    ensures k == |text| || !IsShortcodeChar(text[k])
    decreases |text| - j
  {
    if j < |text| && IsShortcodeChar(text[j]) then RunEnd(text, j + 1) else j
  }

  /** End of the maximal non-whitespace run starting at `j`: `[^\s]*` is greedy. */
  function NonSpaceEnd(text: string, j: nat): (k: nat)
    requires j <= |text|
    ensures j <= k <= |text|
    ensures NonSpaceSpan(text, j, k)
    ensures k == |text| || IsWhitespace(text[k])
    decreases |text| - j
  {
    if j < |text| && !IsWhitespace(text[j]) then NonSpaceEnd(text, j + 1) else j
  }

  /** End of the match the engine finds when it tries position `i`, if any. */
  function MatchAt(text: string, i: nat): (r: Option<nat>)
    requires i <= |text|
    ensures r.Some? ==> i < r.value <= |text| && StopsAt(text, r.value)
  {
    match HeaderAt(text, i)
    case None => None
    case Some((a, b, c)) =>
      var p := i + HeaderLen(a, b, c);
      var k := RunEnd(text, p);
      if k == p then None
      else if k < |text| && text[k] == '/' then Some(NonSpaceEnd(text, k + 1))
      else Some(k)
  }

  /** What the engine finds at every start position, `len(text)` included. */
  function MatchEnds(text: string): (ends: seq<Option<nat>>)
    ensures |ends| == |text| + 1
    ensures forall k | 0 <= k <= |text| :: ends[k] == MatchAt(text, k)
  {
    seq(|text| + 1, k requires 0 <= k <= |text| => MatchAt(text, k))
  }

  /** `re.search`: try start positions left to right and report the first match found. */
  function Search(text: string): (r: Option<(nat, nat)>)
  {
    var ends := MatchEnds(text);
    match FirstSome(ends, 0)
    case None => None
    case Some(s) => Some((s, ends[s].value))
  }

  /** The search result, read against the language: no match at all, or the leftmost-longest one. */
  lemma SearchCorrect(text: string)
    ensures Search(text).None? <==> NoMatchFrom(text, 0)
    ensures Search(text).Some? ==>
              var (s, e) := Search(text).value;
              s < e <= |text| && LeftmostLongest(text, s, e) && StopsAt(text, e)
  {
    var ends := MatchEnds(text);
    match FirstSome(ends, 0)
    case None =>
      forall k: nat, j: nat | k <= j <= |text| ensures !Matches(text, k, j) {
        assert ends[k].None?;
        MatchAtCorrect(text, k);
      }
    case Some(s) =>
      var e := ends[s].value;
      assert MatchAt(text, s) == Some(e);
      MatchAtCorrect(text, s);
      forall k: nat, j: nat | k < s && k <= j <= |text| ensures !Matches(text, k, j) {
        assert ends[k].None?;
        MatchAtCorrect(text, k);
      }
      assert !NoMatchFrom(text, 0);
  }

  /** `extract_instagram_url`: the text of the leftmost match, which is also the longest one there. */
  function ExtractInstagramUrl(text: string): (r: Option<string>)
    ensures r.None? <==> NoMatchFrom(text, 0)
    ensures r.Some? ==> exists s: nat, e: nat | s <= e <= |text| && LeftmostLongest(text, s, e) ::
                          r.value == text[s..e] && StopsAt(text, e)
    ensures r.Some? ==> |r.value| > 0 && InPattern(r.value) && NoWhitespace(r.value)
  {
    SearchCorrect(text);
    match Search(text)
    case None => None
    case Some((s, e)) =>
      MatchesSlice(text, s, e);
      MatchesNoWhitespace(text, s, e);
      assert LeftmostLongest(text, s, e);
      Some(text[s..e])
  }

  // ---------------------------------------------------------------------------
  // Proofs

  lemma SchemeAtComplete(text: string, i: nat, a: nat)
    requires a < 2 && LitAt(text, i, Scheme(a))
    ensures SchemeAt(text, i) == Some(a)
  {
    if a == 0 {
      LitAtDiffers(text, i, Scheme(0), Scheme(1), 4);
    }
  }

  lemma HostAtComplete(text: string, p: nat, b: nat)
    requires b < 2 && LitAt(text, p, Host(b)) && LitAt(text, p + |Host(b)|, Domain)
    ensures HostAt(text, p) == b
  {
    if b == 0 {
      LitAtDiffers(text, p, Domain, Host(1), 0);
    }
  }

  lemma KindAtComplete(text: string, r: nat, c: nat)
    requires c < 3 && LitAt(text, r, Kind(c))
    ensures KindAt(text, r) == Some(c)
  {
    if c != 0 {
      LitAtDiffers(text, r, Kind(c), Kind(0), 0);
    }
    if c == 2 {
      LitAtDiffers(text, r, Kind(2), Kind(1), 0);
    }
  }

  /** The alternatives the recogniser commits to do fit at the position. */
  lemma HeaderAtSound(text: string, i: nat)
    requires HeaderAt(text, i).Some?
    ensures var (a, b, c) := HeaderAt(text, i).value; HeaderFits(text, i, a, b, c)
  {
  }

  lemma HeaderAtFromParts(text: string, i: nat, a: nat, b: nat, c: nat)
    requires a < 2 && b < 2
    requires SchemeAt(text, i) == Some(a)
    requires HostAt(text, i + |Scheme(a)|) == b
    requires LitAt(text, i + |Scheme(a)| + |Host(b)|, Domain)
    requires KindAt(text, i + |Scheme(a)| + |Host(b)| + |Domain|) == Some(c)
    requires LitAt(text, i + |Scheme(a)| + |Host(b)| + |Domain| + |Kind(c)|, "/")
    ensures HeaderAt(text, i) == Some((a, b, c))
  {
    assert HeaderAfterHost(text, i, a, b) == Some((a, b, c));
    assert HeaderAfterScheme(text, i, a) == Some((a, b, c));
  }

  /** At most one choice of alternatives fits at a position, and the recogniser finds it. */
  lemma HeaderAtComplete(text: string, i: nat, a: nat, b: nat, c: nat)
    requires ValidChoice(a, b, c)
    requires HeaderFits(text, i, a, b, c)
    ensures HeaderAt(text, i) == Some((a, b, c))
  {
    var p := i + |Scheme(a)|;
    var q := p + |Host(b)|;
    var r := q + |Domain|;
    SchemeAtComplete(text, i, a);
    HostAtComplete(text, p, b);
    KindAtComplete(text, r, c);
    HeaderAtFromParts(text, i, a, b, c);
  }

  lemma MatchAtSoundWith(text: string, i: nat, a: nat, b: nat, c: nat)
    requires i <= |text| && HeaderAt(text, i) == Some((a, b, c)) && HeaderFits(text, i, a, b, c)
    requires MatchAt(text, i).Some?
    ensures MatchesWith(text, i, MatchAt(text, i).value, a, b, c)
  {
    var p := i + HeaderLen(a, b, c);
    var k := RunEnd(text, p);
    var e := MatchAt(text, i).value;
    if k < |text| && text[k] == '/' {
      assert e == NonSpaceEnd(text, k + 1);
    } else {
      assert e == k;
    }
    assert TailSplit(text, p, k, e);
  }

  lemma MatchAtSound(text: string, i: nat)
    requires i <= |text|
    requires MatchAt(text, i).Some?
    ensures Matches(text, i, MatchAt(text, i).value)
  {
    var (a, b, c) := HeaderAt(text, i).value;
    HeaderAtSound(text, i);
    MatchAtSoundWith(text, i, a, b, c);
  }

  /** A shortcode run that starts where the scan starts ends no later than the scan. */
  lemma {:induction false} RunEndCovers(text: string, p: nat, k: nat)
    requires p <= k <= |text| && ShortcodeSpan(text, p, k)
    ensures k <= RunEnd(text, p)
    decreases k - p
  {
    if p < k {
      assert IsShortcodeChar(text[p]);
      RunEndCovers(text, p + 1, k);
    }
  }

  /** Likewise for a non-whitespace run. */
  lemma {:induction false} NonSpaceEndCovers(text: string, p: nat, k: nat)
    requires p <= k <= |text| && NonSpaceSpan(text, p, k)
    ensures k <= NonSpaceEnd(text, p)
    decreases k - p
  {
    if p < k {
      assert !IsWhitespace(text[p]);
      NonSpaceEndCovers(text, p + 1, k);
    }
  }

  /** Once the fixed part is found, a tail ending at `j` is covered by what the recogniser scans. */
  lemma TailCovered(text: string, p: nat, k: nat, j: nat)
    requires p <= j <= |text| && TailSplit(text, p, k, j)
    ensures var e := RunEnd(text, p);
            p < e && (if e < |text| && text[e] == '/' then j <= NonSpaceEnd(text, e + 1) else j <= e)
  {
    var e := RunEnd(text, p);
    RunEndCovers(text, p, k);
    if k < j {
      assert !IsShortcodeChar(text[k]);
      assert e == k;
      NonSpaceEndCovers(text, k + 1, j);
    }
  }

  lemma MatchAtCompleteWith(text: string, i: nat, j: nat, a: nat, b: nat, c: nat, k: nat)
    requires ValidChoice(a, b, c) && i + HeaderLen(a, b, c) <= j <= |text|
    requires HeaderFits(text, i, a, b, c)
    requires TailSplit(text, i + HeaderLen(a, b, c), k, j)
    ensures MatchAt(text, i).Some? && j <= MatchAt(text, i).value
  {
    HeaderAtComplete(text, i, a, b, c);
    TailCovered(text, i + HeaderLen(a, b, c), k, j);
  }

  lemma MatchAtComplete(text: string, i: nat, j: nat)
    requires i <= j <= |text|
    requires Matches(text, i, j)
    ensures MatchAt(text, i).Some? && j <= MatchAt(text, i).value
  {
    var a: nat, b: nat, c: nat :| MatchesWith(text, i, j, a, b, c);
    var k: nat :| TailSplit(text, i + HeaderLen(a, b, c), k, j);
    MatchAtCompleteWith(text, i, j, a, b, c, k);
  }

  /** The recogniser at one position agrees with the language: it finds the longest match there. */
  lemma MatchAtCorrect(text: string, i: nat)
    requires i <= |text|
    ensures MatchAt(text, i).Some? ==> Matches(text, i, MatchAt(text, i).value)
    ensures forall j: nat | i <= j <= |text| && Matches(text, i, j) ::
              MatchAt(text, i).Some? && j <= MatchAt(text, i).value
  {
    if MatchAt(text, i).Some? {
      MatchAtSound(text, i);
    }
    forall j: nat | i <= j <= |text| && Matches(text, i, j)
      ensures MatchAt(text, i).Some? && j <= MatchAt(text, i).value
    {
      MatchAtComplete(text, i, j);
    }
  }

  lemma HeaderFitsSlice(text: string, lo: nat, hi: nat, i: nat, a: nat, b: nat, c: nat)
    requires lo <= i && i + HeaderLen(a, b, c) <= hi <= |text|
    requires HeaderFits(text, i, a, b, c)
    ensures HeaderFits(text[lo..hi], i - lo, a, b, c)
  {
    var p := i + |Scheme(a)|;
    var q := p + |Host(b)|;
    var r := q + |Domain|;
    LitAtSlice(text, lo, hi, i, Scheme(a));
    LitAtSlice(text, lo, hi, p, Host(b));
    LitAtSlice(text, lo, hi, q, Domain);
    LitAtSlice(text, lo, hi, r, Kind(c));
    LitAtSlice(text, lo, hi, r + |Kind(c)|, "/");
  }

  lemma TailSplitSlice(text: string, lo: nat, hi: nat, p: nat, k: nat)
    requires lo <= p <= hi <= |text|
    requires TailSplit(text, p, k, hi)
    ensures TailSplit(text[lo..hi], p - lo, k - lo, hi - lo)
  {
    var u := text[lo..hi];
    assert ShortcodeSpan(u, p - lo, k - lo) by {
      forall m | p - lo <= m < k - lo ensures IsShortcodeChar(u[m]) {
        assert u[m] == text[lo + m];
      }
    }
    if k < hi {
      assert u[k - lo] == text[k];
      assert NonSpaceSpan(u, k - lo + 1, hi - lo) by {
        forall m | k - lo + 1 <= m < hi - lo ensures !IsWhitespace(u[m]) {
          assert u[m] == text[lo + m];
        }
      }
    }
  }

  lemma MatchesSliceWith(text: string, i: nat, j: nat, a: nat, b: nat, c: nat, k: nat)
    requires ValidChoice(a, b, c) && i + HeaderLen(a, b, c) <= j <= |text|
    requires HeaderFits(text, i, a, b, c)
    requires TailSplit(text, i + HeaderLen(a, b, c), k, j)
    ensures InPattern(text[i..j])
  {
    var u := text[i..j];
    var h := HeaderLen(a, b, c);
    HeaderFitsSlice(text, i, j, i, a, b, c);
    TailSplitSlice(text, i, j, i + h, k);
    assert TailSplit(u, h, k - i, |u|);
    assert MatchesWith(u, 0, |u|, a, b, c);
  }

  /** A match, cut out of its text, is itself a string of the pattern's shape. */
  lemma MatchesSlice(text: string, i: nat, j: nat)
    requires i <= j <= |text|
    requires Matches(text, i, j)
    ensures InPattern(text[i..j])
  {
    var a: nat, b: nat, c: nat :| MatchesWith(text, i, j, a, b, c);
    var k: nat :| TailSplit(text, i + HeaderLen(a, b, c), k, j);
    MatchesSliceWith(text, i, j, a, b, c, k);
  }

  predicate PrintableAscii(s: string) {
    forall m | 0 <= m < |s| :: 0x21 <= s[m] as int <= 0x7E
  }

  /** The characters a literal covers inherit what is known of the literal's characters. */
  lemma LitAtPrintable(text: string, q: nat, lit: string)
    requires LitAt(text, q, lit)
    requires PrintableAscii(lit)
    ensures forall m | q <= m < q + |lit| :: !IsWhitespace(text[m])
  {
    forall m | q <= m < q + |lit| ensures !IsWhitespace(text[m]) {
      LitAtChar(text, q, lit, m - q);
    }
  }

  lemma PartsPrintable(a: nat, b: nat, c: nat)
    ensures PrintableAscii(Scheme(a)) && PrintableAscii(Host(b)) && PrintableAscii(Domain)
    ensures PrintableAscii(Kind(c)) && PrintableAscii("/")
  {
  }

  lemma HeaderNoWhitespace(text: string, i: nat, a: nat, b: nat, c: nat)
    requires HeaderFits(text, i, a, b, c)
    ensures forall m | i <= m < i + HeaderLen(a, b, c) :: !IsWhitespace(text[m])
  {
    var p := i + |Scheme(a)|;
    var q := p + |Host(b)|;
    var r := q + |Domain|;
    PartsPrintable(a, b, c);
    LitAtPrintable(text, i, Scheme(a));
    LitAtPrintable(text, p, Host(b));
    LitAtPrintable(text, q, Domain);
    LitAtPrintable(text, r, Kind(c));
    LitAtPrintable(text, r + |Kind(c)|, "/");
  }

  lemma MatchNoWhitespaceWith(text: string, i: nat, j: nat, a: nat, b: nat, c: nat, k: nat)
    requires ValidChoice(a, b, c) && i + HeaderLen(a, b, c) <= j <= |text|
    requires HeaderFits(text, i, a, b, c)
    requires TailSplit(text, i + HeaderLen(a, b, c), k, j)
    ensures forall m | i <= m < j :: !IsWhitespace(text[m])
  {
    HeaderNoWhitespace(text, i, a, b, c);
  }

  /** Nothing a match covers is whitespace. */
  lemma MatchesNoWhitespace(text: string, i: nat, j: nat)
    requires i <= j <= |text|
    requires Matches(text, i, j)
    ensures NoWhitespace(text[i..j])
  {
    var a: nat, b: nat, c: nat :| MatchesWith(text, i, j, a, b, c);
    var k: nat :| TailSplit(text, i + HeaderLen(a, b, c), k, j);
    MatchNoWhitespaceWith(text, i, j, a, b, c, k);
    forall m | 0 <= m < j - i ensures !IsWhitespace(text[i..j][m]) {
      assert text[i..j][m] == text[i + m];
    }
  }
}

=== FILE: message_handler.dfy ===
/**
  The outcome logic of the bot's message handler (bot.py, `handle_message`).
  Every call the handler makes on the chat service or the file system is
  represented by its outcome, fixed in advance in a `World`; the handler's
  behaviour is the sequence of chat actions it performs.
*/
module MessageHandler {
  import opened Basics
  import InstagramUrl
  import opened FileSelection

  /** Largest file the bot will upload: 50 MiB, the chat service's limit for bots. */
  const MaxUploadBytes: nat := 50 * 1024 * 1024

  /** The chat actions the handler can take, in the order it takes them. */
  datatype Action =
    | ShowUploading           // the "uploading video" indicator
    | ReplyUnavailable        // "could not download, maybe private or unavailable"
    | ReplyTooLarge           // "video too large to send (over 50 MB)"
    | SendVideo(ok: bool)     // upload of the file; `ok` is whether it went through
    | DeleteOriginal(ok: bool) // removal of the message with the link; failures are swallowed
    | ReplySendFailed         // "error while sending the video, try later"

  /** Outcomes of everything the handler asks of the outside world for one message. */
  datatype World = World(
    run: ExtractorRun,   // what the extractor library did with the URL
    fileExists: bool,    // the chosen path still exists when it is checked
    fileSize: nat,       // its size in bytes
    sendOk: bool,        // the upload succeeds
    deleteOk: bool       // deleting the original message succeeds
  )

  /** The extractor left a video file behind in the scratch directory. */
  predicate LeftVideo(w: World) {
    w.run.Finished? && exists k | 0 <= k < |w.run.listing| :: IsVideo(w.run.listing[k])
  }

  /** The message carries a text with a link to a post. */
  predicate HasLink(text: Option<string>) {
    text.Some? && InstagramUrl.ExtractInstagramUrl(text.value).Some?
  }

  /**
    Everything after the link search: `link` is what `extract_instagram_url`
    returned for the message text.
  */
  method Respond(link: Option<string>, w: World) returns (trace: seq<Action>)
    ensures trace == [] <==> link.None?
    ensures link.Some? ==> trace[0] == ShowUploading
    ensures link.Some? && !(LeftVideo(w) && w.fileExists) ==> trace == [ShowUploading, ReplyUnavailable]
    ensures link.Some? && LeftVideo(w) && w.fileExists && w.fileSize > MaxUploadBytes ==>
              trace == [ShowUploading, ReplyTooLarge]
    ensures link.Some? && LeftVideo(w) && w.fileExists && w.fileSize <= MaxUploadBytes ==>
              |trace| == 3 && trace[1] == SendVideo(w.sendOk)
              && trace[2] == (if w.sendOk then DeleteOriginal(w.deleteOk) else ReplySendFailed)
    ensures forall n | 0 <= n < |trace| && trace[n].SendVideo? :: w.fileSize <= MaxUploadBytes
    ensures forall n | 0 <= n < |trace| && trace[n].DeleteOriginal? ::
              0 < n && trace[n - 1] == SendVideo(true)
  {
    if link.None? {
      return [];
    }
    trace := [ShowUploading];
    var path := DownloadVideo(w.run);
    if path.None? || !w.fileExists {
      return trace + [ReplyUnavailable];
    }
    if w.fileSize > MaxUploadBytes {
      return trace + [ReplyTooLarge];
    }
    if w.sendOk {
      trace := trace + [SendVideo(true), DeleteOriginal(w.deleteOk)];
    } else {
      trace := trace + [SendVideo(false), ReplySendFailed];
    }
  }

  /**
    One incoming message. `text` is `None` when the update has no message or
    the message has no text; such updates, and texts without a link, get no
    reaction at all.
  */
  method HandleMessage(text: Option<string>, w: World) returns (trace: seq<Action>)
    ensures trace == [] <==> !HasLink(text)
    ensures HasLink(text) ==> trace[0] == ShowUploading
    ensures HasLink(text) && !(LeftVideo(w) && w.fileExists) ==> trace == [ShowUploading, ReplyUnavailable]
    ensures HasLink(text) && LeftVideo(w) && w.fileExists && w.fileSize > MaxUploadBytes ==>
              trace == [ShowUploading, ReplyTooLarge]
    ensures HasLink(text) && LeftVideo(w) && w.fileExists && w.fileSize <= MaxUploadBytes ==>
              |trace| == 3 && trace[1] == SendVideo(w.sendOk)
              && trace[2] == (if w.sendOk then DeleteOriginal(w.deleteOk) else ReplySendFailed)
    ensures forall n | 0 <= n < |trace| && trace[n].SendVideo? :: w.fileSize <= MaxUploadBytes
    ensures forall n | 0 <= n < |trace| && trace[n].DeleteOriginal? ::
              0 < n && trace[n - 1] == SendVideo(true)
  {
    if text.None? || text.value == "" {
      return [];
    }
    var link := InstagramUrl.ExtractInstagramUrl(text.value);
    trace := Respond(link, w);
  }
}

=== FILE: url_examples.dfy ===
/**
  Worked examples of the link search on concrete messages: what happens to a
  query string after the shortcode, and to a path after a slash.
*/
module UrlExamples {
  import opened Basics
  import opened InstagramUrl

  /** A text that starts with a link yields the match found at position 0. */
  lemma ExtractFromStart(text: string, e: nat)
    requires MatchAt(text, 0) == Some(e)
    ensures ExtractInstagramUrl(text) == Some(text[..e])
  {
    assert MatchEnds(text)[0] == Some(e);
  }

  const Query: string := "https://instagram.com/reel/ABC?x=1"

  lemma QueryScheme()
    ensures SchemeAt(Query, 0) == Some(1)
  {
    assert LitAt(Query, 0, Scheme(1));
  }

  lemma QueryHost()
    ensures HostAt(Query, 8) == 0 && LitAt(Query, 8, Domain)
  {
    assert LitAt(Query, 8, Domain);
    LitAtDiffers(Query, 8, Domain, Host(1), 0);
  }

  lemma QueryKind()
    ensures KindAt(Query, 22) == Some(0) && LitAt(Query, 26, "/")
  {
    assert LitAt(Query, 22, Kind(0));
    assert LitAt(Query, 26, "/");
  }

  lemma QueryHeader()
    ensures HeaderAt(Query, 0) == Some((1, 0, 0))
  {
    QueryScheme();
    QueryHost();
    QueryKind();
    HeaderAtFromParts(Query, 0, 1, 0, 0);
  }

  lemma QueryRun()
    ensures RunEnd(Query, 27) == 30
  {
    assert !IsShortcodeChar(Query[30]);
    assert RunEnd(Query, 30) == 30;
    assert RunEnd(Query, 29) == 30;
    assert RunEnd(Query, 28) == 30;
  }

  lemma QueryMatch()
    ensures MatchAt(Query, 0) == Some(30)
  {
    QueryHeader();
    QueryRun();
    assert HeaderLen(1, 0, 0) == 27;
  }

  /** The shortcode run stops at `?`, and without a `/` there is no path part. */
  lemma QueryIsDropped()
    ensures ExtractInstagramUrl(Query) == Some("https://instagram.com/reel/ABC")
  {
    QueryMatch();
    ExtractFromStart(Query, 30);
    QueryPrefix();
  }

  lemma QueryPrefix()
    ensures Query[..30] == "https://instagram.com/reel/ABC"
  {
  }

  const Tail: string := "http://instagram.com/tv/X_/?a b"

  lemma TailScheme()
    ensures SchemeAt(Tail, 0) == Some(0)
  {
    assert LitAt(Tail, 0, Scheme(0));
    LitAtDiffers(Tail, 0, Scheme(0), Scheme(1), 4);
  }

  lemma TailKind()
    ensures KindAt(Tail, 21) == Some(2)
  {
    assert LitAt(Tail, 21, Kind(2));
    LitAtDiffers(Tail, 21, Kind(2), Kind(0), 0);
    LitAtDiffers(Tail, 21, Kind(2), Kind(1), 0);
  }

  lemma TailHost()
    ensures HostAt(Tail, 7) == 0 && LitAt(Tail, 7, Domain)
  {
    assert LitAt(Tail, 7, Domain);
    LitAtDiffers(Tail, 7, Domain, Host(1), 0);
  }

  lemma TailHeader()
    ensures HeaderAt(Tail, 0) == Some((0, 0, 2))
  {
    TailScheme();
    TailHost();
    TailKind();
    assert LitAt(Tail, 23, "/");
    HeaderAtFromParts(Tail, 0, 0, 0, 2);
  }

  lemma TailEnds()
    ensures RunEnd(Tail, 24) == 26
    ensures NonSpaceEnd(Tail, 27) == 29
  {
    assert RunEnd(Tail, 26) == 26;
    assert RunEnd(Tail, 25) == 26;
    assert IsWhitespace(Tail[29]);
    assert NonSpaceEnd(Tail, 29) == 29;
    assert NonSpaceEnd(Tail, 28) == 29;
  }

  lemma TailMatch()
    ensures MatchAt(Tail, 0) == Some(29)
  {
    TailHeader();
    TailEnds();
    assert HeaderLen(0, 0, 2) == 24;
  }

  /** After a `/` the link runs on, query string included, up to the next whitespace. */
  lemma PathAfterSlashIsKept()
    ensures ExtractInstagramUrl(Tail) == Some("http://instagram.com/tv/X_/?a")
  {
    TailMatch();
    ExtractFromStart(Tail, 29);
    TailPrefix();
  }

  lemma TailPrefix()
    ensures Tail[..29] == "http://instagram.com/tv/X_/?a"
  {
  }
}
